=== FILE: README.md ===
# Data-Handler: chunked CSV loading and JSON dumping, in Dafny

This project models the two conversion routines of Data-Handler.

`load_from_csv` reads a CSV file. Its first record is the header. Every later record becomes a row
map from column name to raw cell text. The rows are grouped into chunks of at most `chunk_size` rows
and returned as a chunk pack: a dict from generated names `<file minus 4 chars>_chunk<N>` to chunks.

`dump_to_json` writes each entry of a chunk pack to `<name>.json` as the one-key object
`{name: chunk}`. It can first create and enter a folder, and it can step back to the parent folder.

The model is functional:

- `Rows` builds one row map, the inner column loop.
- `Chunking` gives generic facts about cutting a sequence into pieces and gluing them back. It also
  holds a reference cutting, `ChunksOf`.
- `Loader` states the splitting loop as a fold of one loop turn (`Feed`) over the rows. The loop
  state is the sealed entries, the chunk being filled, the counter and the part number.
  `LoadFromCsv` puts the whole routine together, with its two errors.
- `Decimal` renders part numbers the way Python's `str` does.
- `Dumper` turns a dump into a list of effects (`MakeDir`, `ChDir`, `Write`, `ChDirUp`). It also gives
  a small file-system semantics for running that list.

The CSV file reaches the model already split into records and cells. `os.path.isdir(folder_name)` is
passed in as a boolean, `dirExists`.

The source's default arguments are explicit in the model. `load_from_csv(name)` is
`LoadFromCsv(name, records, Loader.DefaultChunkSize)`, that is `Some(1000000)` (loader.py:11).
`dump_to_json(pack)` is `DumpToJson(pack, None, dirExists)`: `folder_name` defaults to `None`, and
the `indent=2` default only formats the output (dumper.py:11).

The loader's `chunk_size` is an `Option<int>`. `None` and `Some(0)` are Python-falsy. The folder name
is an `Option<string>`, and only a non-empty string is truthy. The chunk pack is a sequence of
`(name, chunk)` entries in dict insertion order. Distinct names are the dict's key invariant.

A data record with fewer cells than the header makes `row[key_i]` raise `IndexError` (loader.py
lines 59 and 77), so the call fails rather than producing a shorter row map. This is modelled as the
error `ShortRow(i)` for the first such record. A negative `chunk_size` never equals the row counter,
so every row lands in one chunk; with no rows the pack is empty.

Chunk names keep the directory part of the CSV file name: `data/x.csv` gives the key
`data/x_chunk1`. The dumper opens `<key>.json` relative to the working directory, so the model splits
a file name into `/`-separated components, and a write into a sub-directory that does not exist
raises.

## Model

| member | source | states |
|---|---|---|
| Decimal.NatToString | loader.py:70 | `str(parts)` is a non-empty string of decimal digits. It starts with `0` only for zero, so there are no leading zeros. |
| Decimal.ParseNatToString | loader.py:82 | Reading back the numeral of a part number gives that number. |
| Decimal.NatToStringInjective | loader.py:70 | Two part numbers have the same numeral exactly when they are equal. |
| Rows.BuildRowPrefixKeys | loader.py:58-59 | After the first `n` column steps, the keys of the row map are exactly the first `n` header names. |
| Rows.BuildRowPrefixValues | loader.py:58-59 | After the first `n` column steps, a name whose last occurrence so far is at position `i` is bound to cell `i`. |
| Rows.BuildRow | loader.py:57-59 | The keys of a row map are exactly the header names. A repeated name is bound to the cell under its last occurrence. |
| Rows.BuildRowIgnoresExtraCells | loader.py:58-59 | Cells past the header's length have no effect on the row map. |
| Chunking.FlattenSnoc | loader.py:71-72 | Sealing a chunk and starting an empty one keeps the concatenation of sealed and pending rows unchanged. |
| Chunking.ChunkBounds | loader.py:68-79 | `m` chunks of that shape hold more than `(m-1)*K` and at most `m*K` rows. |
| Chunking.ChunkCount | loader.py:66-83 | The number of chunks is `ceil(N/K)` for `N` rows, and it is zero exactly when `N` is zero. |
| Chunking.WellChunkedUnique | loader.py:66-83 | Only one list of chunks with that shape glues back to a given row sequence. |
| Chunking.ChunksOf | loader.py:66-83 | The reference cutting (take K rows while more than K remain) glues back to its input and has the shape. |
| Loader.BaseName | loader.py:61 | `csv_filename[:-4]` is the name minus its last four characters. It is empty for a name shorter than four. |
| Loader.ChunkNameInjective | loader.py:70 | Two chunk names of one file are equal exactly when their part numbers are equal. |
| Loader.BuildRows | loader.py:56-60 | On success there is one row map per data record, in order. Failure happens exactly when some record is shorter than the header, and it names the first such record. |
| Loader.SealFlatten | loader.py:70-71 | Sealing keeps the sealed entries and appends the pending chunk after them, so the rows still concatenate in order. When the sealed entries are named after parts 1, 2, … and `parts` is the next number, the new entry continues that naming. |
| Loader.FeedAllInvariant | loader.py:66-79 | For K > 0, the loop state after any prefix satisfies the following. Sealed chunks plus the pending chunk concatenate to the prefix. Sealed chunks hold K rows each and are named for parts 1, 2, … The counter is the pending chunk's size, at most K. `parts` is one more than the number of sealed chunks. |
| Loader.FeedAllNegative | loader.py:68 | With a negative size nothing is sealed inside the loop, and the pending chunk is every row. |
| Loader.SplitRowsPositive | loader.py:64-83 | For K > 0, the chunks glue back to the rows and are named `_chunk1`, `_chunk2`, … in order. Each chunk holds 1..K rows, and all but the last hold exactly K. |
| Loader.SplitRowsNegative | loader.py:64-83 | For a negative size, the result is one `_chunk1` entry holding every row, or no entry when there are no rows. |
| Loader.ReadRows | loader.py:49-60 | The first record is the header. No records at all gives `EmptyFile`. Failure happens exactly when a later record is shorter than the header, and it names the first one. On success the rows are the row maps of the records after the header, in order. |
| Loader.ChunkRows | loader.py:55-83 | The chunks glue back to the rows and are named `_chunk1`, `_chunk2`, … in order. A falsy size gives exactly one entry. A positive size gives chunks of 1..K rows, all but the last full. A negative size gives at most one entry. |
| Loader.LoadFromCsv | loader.py:45-83 | It has the errors of reading the records. On success the chunks concatenate to the row maps of the records after the header, in order, and the names run `_chunk1`, `_chunk2`, … |
| Loader.LoadChunkBounds | loader.py:68-79 | With K > 0, every chunk holds 1..K rows, and all but the last hold exactly K. |
| Loader.LoadUnsplit | loader.py:55-62 | With `chunk_size` `None` or 0, the pack is the single entry `<base>_chunk1` holding every row, even when there are no rows. |
| Loader.LoadChunkCount | loader.py:66-83 | With K > 0 and N data rows, the pack has `ceil(N/K)` entries, and none exactly when N = 0. |
| Loader.LoadMatchesChunksOf | loader.py:66-83 | With K > 0, the chunks equal the reference cutting of the rows. |
| Loader.LoadNegativeSize | loader.py:68 | With K < 0, the pack is empty for no rows and otherwise one `_chunk1` entry holding every row. |
| Loader.ConsecutiveNamesDistinct | loader.py:70 | Entries named after consecutive part numbers have pairwise distinct names. |
| Loader.LoadNamesDistinct | loader.py:70 | All generated names in a pack differ, so no chunk replaces another in the dict. |
| Dumper.JsonFileNameInjective | dumper.py:48 | Distinct keys give distinct `<key>.json` file names. |
| Dumper.EnterFolder | dumper.py:38-41 | There is a directory effect only for a truthy folder, and then the last one is `ChDir(folder)`. `MakeDir(folder)` comes first, and only when the folder does not exist. There are exactly two effects for a missing folder, one for an existing one and none without a folder. |
| Dumper.WriteChunks | dumper.py:46-55 | The write at position `i` (`pack_counter` = `i+1`) goes to `<key>.json` with the record `{key: chunk}` of entry `i`. |
| Dumper.DumpWritesInOrder | dumper.py:46-55 | A dump makes exactly one write per pack entry, in pack order, each to `<key>.json` with `{key: chunk}`. |
| Dumper.DumpMakesMissingFolder | dumper.py:38-40 | A folder is created exactly when it is named and missing, and only as the first effect. |
| Dumper.DumpEntersFolderBeforeWrites | dumper.py:38-41 | A named folder is entered, and every change into a folder comes before every write. |
| Dumper.DumpWithoutFolder | dumper.py:38 | Without a truthy folder there is no `MakeDir` or `ChDir`, only writes and the final step back. |
| Dumper.DumpStepsUpForSeveralChunks | dumper.py:58-59 | `ChDirUp` is emitted exactly when the pack has more than one entry, whatever the folder. |
| Dumper.SplitPath | dumper.py:48-51 | `open` reads a file name as at least one path component, none containing `/`. |
| Dumper.JoinSplitPath | dumper.py:48-51 | Joining the components of a file name with `/` gives the name back. |
| Dumper.SplitPathSingle | dumper.py:48-51 | A file name is a single component exactly when it holds no `/`. |
| Dumper.SplitPathAfterDir | dumper.py:48-51 | In `d/t`, with no `/` in `d`, the first component is `d` and the rest are those of `t`. |
| Dumper.RunWriteChunks | dumper.py:46-55 | With distinct single-component keys whose files are not directories, each entry's file ends up holding exactly `{key: chunk}`, whatever it held before (mode `'w+'`). Every other file, the directories and the working directory are unchanged, and no other file appears. |
| Dumper.RunNestedWrite | dumper.py:48-52 | A key `d/n`, with `d` a plain component (not empty, `.` or `..`), raises `NoSuchDirectory` when the sub-directory `d` does not exist. It raises `IsADirectory` when `d/n.json` is a directory, and otherwise replaces the file `n.json` in `d`. |
| Dumper.RunWriteChunksFailsAt | dumper.py:46-52 | The writes raise as soon as one of them would raise on the starting file system, since earlier writes change neither the directories nor the working directory. |
| Dumper.RunWriteChunksMissingDir | dumper.py:46-52 | The writes raise when some key is a plain relative path whose sub-directory does not exist. |
| Dumper.RunWriteChunksTargetIsDir | dumper.py:48-52 | The writes raise when some entry's `<key>.json` is an existing directory (`IsADirectoryError`). |
| Dumper.DumpIntoFileNamedLikeFolderFails | dumper.py:38-40 | When a regular file has the folder's name, `isdir` answers no, and `os.makedirs` raises `FileExists` before anything is written. |
| Dumper.DumpNestedKeyIntoNewFolderFails | dumper.py:38-52 | Dumping into a folder that does not exist yet raises when some key is a relative path with a sub-directory part, and none of its components is empty, `.` or `..`. |
| Dumper.CsvInSubfolderDumpFails | loader.py:61 | The chunk of `data/x.csv` is keyed `data/x_chunk1`, and dumping it into a new folder `out` raises. |
| Dumper.RunEnterFolder | dumper.py:38-41 | Given a faithful `isdir` answer and no regular file in the folder's place, entering never fails and leaves the process in the dump directory. It adds at most that directory and changes no file. |
| Dumper.DumpOutcome | dumper.py:33-59 | With distinct single-component keys and a one-component folder name other than `.` and `..`, no regular file in the folder's place and no directory in an entry's file's place, running a dump never raises. Each entry's file in the dump directory holds exactly `{key: chunk}`, other files are untouched, and no other file appears. The working directory ends in the dump directory's parent for more than one entry, otherwise in the dump directory. |
| Dumper.DumpCwdQuirk | dumper.py:57-59 | Under the assumptions of `DumpOutcome`, the process returns to its starting directory exactly when "a folder was named" matches "there is more than one entry". |
| Dumper.ScopedDumpRestoresCwd | dumper.py:57-59 | Under the assumptions of `DumpOutcome`, and in the corrected plan, which steps back exactly when a folder was entered, the process always returns to its starting directory. It writes the same files as the as-written plan `DumpToJson`. |
| Dumper.PlainKeyOfDirAndName | loader.py:61 | A key `d/n`, built from a CSV file name with one plain directory component `d`, is a plain relative path. |
| Dumper.OneChunkDumpStaysInFolder | dumper.py:38-41 | A one-entry dump into a new folder `out` leaves the process inside `out`. |

## Left out

- Reading the file and CSV tokenising by Python's `csv` module (quoting, escaping, delimiters) are foreign-library work. The model takes the records as already split cells. A missing or unreadable file is therefore not an error case here.
- `load_from_json` and `json.dump` are thin wrappers over the JSON library. A written record is modelled as the map it serialises, and `indent` is only a formatting pass-through.
- Timing (`time()`, rounding) and every `logger.info` call are left out, including the chunk-count text and its pluralisation. `pack_counter` only feeds those log lines; its value is the write's position plus one.
- log_controller.py (`setup_logger`, `empty_log`) and the module-level logger construction only configure Python's `logging` library.
- A short record raises `IndexError` part-way through a row. The model reports the whole call as `ShortRow(i)`, because the exception discards every partial result.
- `chunk_size` is taken to be an `int` or `None`. Other Python values (`True`, floats) are not modelled.
- Folder names are single path components. `os.makedirs` creating several levels, and `..` or absolute names, are not modelled.
- I/O failures while writing (permission denied, disk full) are not modelled. Neither is writing into a directory that was removed meanwhile.
- Dumper.RunWriteChunks: assumes distinct entry names, which every dict has. A sequence with repeated names, which no dict can be, is outside the statement. It also assumes keys without `/`: such a key's file lands in a sub-directory and may raise. `RunNestedWrite` and `RunWriteChunksMissingDir` state what happens then. It also assumes that no entry's file is a directory, where `open` raises (`RunWriteChunksTargetIsDir`).
- Dumper.DumpOutcome: assumes a folder name that is one path component other than `.` and `..`. For `a/b` the operating system steps back to `a`, while the model keeps `a/b` as a single component. It also assumes distinct entry names, for the same reason as `RunWriteChunks`. It also assumes keys without `/`, which `load_from_csv` produces only for a CSV file name without a directory part. For other keys the dump may raise (`DumpNestedKeyIntoNewFolderFails`), or it may write into an existing sub-directory (`RunNestedWrite`). It also assumes that no regular file has the folder's name, where `os.makedirs` raises (`DumpIntoFileNamedLikeFolderFails`). And it assumes that no entry's file is a directory, where `open` raises (`RunWriteChunksTargetIsDir`).
- Dumper.DumpCwdQuirk: assumes distinct keys without `/` and a one-component folder name other than `.` and `..`, as `DumpOutcome` does. For folder `a/b` or `.`, Python does not end in the starting directory even when the condition holds. It also assumes a starting directory other than the root, whose parent is itself. It shares `DumpOutcome`'s assumption that neither the folder nor any entry's file clashes with an existing file or directory.
- Dumper.ScopedDumpRestoresCwd: assumes distinct keys without `/` and a one-component folder name other than `.` and `..`, as `DumpOutcome` does. For folder `a/b` or `.`, a single `os.chdir('..')` does not undo the `os.chdir(folder_name)`, even in the corrected code. It shares `DumpOutcome`'s assumption that neither the folder nor any entry's file clashes with an existing file or directory.
- Dumper.DumpNestedKeyIntoNewFolderFails: covers only relative keys without empty, `.` or `..` components. A key from an absolute CSV path (`/tmp/x.csv`) or a `../` path names a file outside the new folder, and Python's `open` writes it without raising.
- Path resolution is literal. Empty components (`a//b`, a trailing `/`), a leading `/`, and `.` or `..` inside a key are not resolved as the operating system would.
- Dumper.RunEnterFolder: assumes no regular file has the folder's name. In that case `os.makedirs` raises, as `DumpIntoFileNamedLikeFolderFails` states.
- Dumper.RunNestedWrite: covers only a plain directory component `d`. For `..`, `.` or an empty `d` (keys from `../x.csv`, `./x.csv` or `/x.csv`), `open` resolves the path and writes the file, which the literal model cannot express.
- Dumper.RunWriteChunksMissingDir: covers only plain relative keys. A key from an absolute or `../` CSV path names an existing directory outside the working directory, and `open` writes it.
- The merge-on-append dumper and the index-named dumper are not part of this model. The dumper.py modelled here has only the overwrite variant.

## Findings

| source | as written | input that shows it | evidently intended | confidence | as-written member | corrected member |
|---|---|---|---|---|---|---|
| dumper.py:57-59 | `os.chdir('..')` runs when `pack_size > 1` | `folder_name="out"` with a one-entry pack leaves the process inside `out/`; `folder_name=None` with two entries moves it to the parent of its starting directory | step back exactly when the folder was entered (`if folder_name:`), as the comment on line 57 says | medium; not executed | Dumper.DumpCwdQuirk | Dumper.ScopedDumpRestoresCwd |

`Dumper.DumpToJsonScoped` is the corrected plan. The as-written `Dumper.DumpToJson` remains the model of the routine itself, and `Dumper.OneChunkDumpStaysInFolder` is the concrete instance of the discrepancy.

=== FILE: chunking.dfy ===
/** Cutting a sequence into consecutive bounded pieces, and gluing the pieces back together. */
module Chunking {

  /** The pieces concatenated in order. */
  function Flatten<T>(cs: seq<seq<T>>): seq<T>
    decreases |cs|
  {
    if cs == [] then [] else cs[0] + Flatten(cs[1..])
  }

  lemma {:induction false} FlattenSnoc<T>(cs: seq<seq<T>>, c: seq<T>)
    ensures Flatten(cs + [c]) == Flatten(cs) + c
    decreases |cs|
  {
    if cs == [] {
      assert cs + [c] == [c];
      assert Flatten([c]) == c + Flatten([c][1..]);
    } else {
      assert (cs + [c])[1..] == cs[1..] + [c];
      FlattenSnoc(cs[1..], c);
    }
  }

  /** A single piece glues back to itself. */
  lemma FlattenSingle<T>(c: seq<T>)
    ensures Flatten([c]) == c
  {
    assert Flatten([c]) == c + Flatten([c][1..]);
  }

  /** Every piece holds between 1 and `k` elements. */
  ghost predicate Bounded<T>(cs: seq<seq<T>>, k: nat) {
    forall i :: 0 <= i < |cs| ==> 1 <= |cs[i]| <= k
  }

  /** Every piece except the last holds exactly `k` elements. */
  ghost predicate FullExceptLast<T>(cs: seq<seq<T>>, k: nat) {
    forall i :: 0 <= i < |cs| - 1 ==> |cs[i]| == k
  }

  /** The shape of a sequence cut into pieces of `k`: full pieces, then one non-empty remainder. */
  ghost predicate WellChunked<T>(cs: seq<seq<T>>, k: nat) {
    Bounded(cs, k) && FullExceptLast(cs, k)
  }

  lemma WellChunkedTail<T>(cs: seq<seq<T>>, k: nat)
    requires cs != [] && WellChunked(cs, k)
    ensures WellChunked(cs[1..], k)
  {
    forall i | 0 <= i < |cs[1..]|
      ensures 1 <= |cs[1..][i]| <= k
    {
      assert cs[1..][i] == cs[i + 1];
    }
    forall i | 0 <= i < |cs[1..]| - 1
      ensures |cs[1..][i]| == k
    {
      assert cs[1..][i] == cs[i + 1];
    }
  }

  lemma DivUnique(x: nat, k: nat, q: nat)
    requires k > 0
    requires q * k <= x < q * k + k
    ensures x / k == q
  {
    var d := x / k;
    assert d * k + x % k == x;
    if d < q {
      MulMonotone(d + 1, q, k);
      assert false;
    } else if d > q {
      MulMonotone(q + 1, d, k);
      assert false;
    }
  }

  lemma MulMonotone(a: nat, b: nat, k: nat)
    requires a <= b
    ensures a * k <= b * k
  {
  }

  /** The pieces of a well-chunked sequence glue to between `(m - 1) * k + 1` and `m * k` elements. */
  lemma {:induction false} ChunkBounds<T>(cs: seq<seq<T>>, k: nat)
    requires k > 0 && WellChunked(cs, k) && cs != []
    ensures (|cs| - 1) * k < |Flatten(cs)| <= |cs| * k
    decreases |cs|
  {
    var m := |cs|;
    var n := |Flatten(cs)|;
    assert n == |cs[0]| + |Flatten(cs[1..])|;
    if m > 1 {
      WellChunkedTail(cs, k);
      ChunkBounds(cs[1..], k);
      assert |cs[0]| == k;
      assert (m - 1) * k == (m - 2) * k + k;
      assert m * k == (m - 1) * k + k;
    }
  }

  /** A well-chunked sequence of `n` elements has ceil(n / k) pieces; only the empty one has none. */
  lemma ChunkCount<T>(cs: seq<seq<T>>, k: nat)
    requires k > 0 && WellChunked(cs, k)
    ensures |cs| == (|Flatten(cs)| + k - 1) / k
    ensures cs == [] <==> Flatten(cs) == []
  {
    if cs != [] {
      ChunkBounds(cs, k);
      var m := |cs|;
      var n := |Flatten(cs)|;
      assert (m - 1) * k + k == m * k;
      DivUnique(n + k - 1, k, m);
    }
  }

  /** A sequence has one way of being cut into pieces of `k`. */
  lemma {:induction false} WellChunkedUnique<T>(a: seq<seq<T>>, b: seq<seq<T>>, k: nat)
    requires k > 0 && WellChunked(a, k) && WellChunked(b, k)
    requires Flatten(a) == Flatten(b)
    ensures a == b
    decreases |a|
  {
    ChunkCount(a, k);
    ChunkCount(b, k);
    if |a| == 1 {
      assert a[1..] == [] && b[1..] == [];
      assert Flatten(a[1..]) == [] && Flatten(b[1..]) == [];
      assert Flatten(a) == a[0] + Flatten(a[1..]);
      assert Flatten(b) == b[0] + Flatten(b[1..]);
      assert a[0] == Flatten(a) == Flatten(b) == b[0];
      assert a == [a[0]] && b == [b[0]];
    } else if |a| > 1 {
      assert |a[0]| == k == |b[0]|;
      var fa := Flatten(a);
      assert fa == a[0] + Flatten(a[1..]);
      assert Flatten(b) == b[0] + Flatten(b[1..]);
      assert a[0] == fa[..k] == b[0];
      assert Flatten(a[1..]) == fa[k..] == Flatten(b[1..]);
      WellChunkedTail(a, k);
      WellChunkedTail(b, k);
      WellChunkedUnique(a[1..], b[1..], k);
      assert a == [a[0]] + a[1..];
      assert b == [b[0]] + b[1..];
    }
  }

  /** Reference cutting: take `k` elements while more than `k` remain, then the rest if any. */
  function ChunksOf<T>(xs: seq<T>, k: nat): (cs: seq<seq<T>>)
    requires k > 0
    ensures Flatten(cs) == xs
    ensures WellChunked(cs, k)
    decreases |xs|
  {
    if xs == [] then []
    else if |xs| <= k then
      assert Flatten([xs]) == xs + Flatten([xs][1..]);
      [xs]
    else
      var rest := ChunksOf(xs[k..], k);
      assert ([xs[..k]] + rest)[1..] == rest;
      assert xs[..k] + xs[k..] == xs;
      [xs[..k]] + rest
  }
}

=== FILE: decimal.dfy ===
/** Decimal numerals for natural numbers, as Python's `str` renders a non-negative `int`. */
module Decimal {

  predicate IsDigit(c: char) {
    '0' <= c <= '9'
  }

  predicate AllDigits(s: string) {
    forall i :: 0 <= i < |s| ==> IsDigit(s[i])
  }

  function DigitChar(d: nat): (c: char)
    requires d < 10
    ensures IsDigit(c)
  {
    ('0' as int + d) as char
  }

  function DigitValue(c: char): nat
    requires IsDigit(c)
  {
    c as int - '0' as int
  }

  /** `str(n)`: the canonical numeral of `n`, most significant digit first, without leading zeros. */
  function NatToString(n: nat): (s: string)
    ensures |s| >= 1
    ensures AllDigits(s)
    ensures s[0] == '0' <==> n == 0
    decreases n
  {
    if n < 10 then [DigitChar(n)] else NatToString(n / 10) + [DigitChar(n % 10)]
  }

  /** The value a numeral denotes. */
  function ParseDecimal(s: string): nat
    requires AllDigits(s)
    decreases |s|
  {
    if s == [] then 0 else ParseDecimal(s[..|s| - 1]) * 10 + DigitValue(s[|s| - 1])
  }

  /** Reading back a rendered number gives the number. */
  lemma {:induction false} ParseNatToString(n: nat)
    ensures ParseDecimal(NatToString(n)) == n
    decreases n
  {
    if n >= 10 {
      var s := NatToString(n);
      assert s[..|s| - 1] == NatToString(n / 10);
      ParseNatToString(n / 10);
    }
  }

  /** Distinct numbers have distinct numerals. */
  lemma NatToStringInjective(a: nat, b: nat)
    ensures NatToString(a) == NatToString(b) <==> a == b
  {
    ParseNatToString(a);
    ParseNatToString(b);
  }
}

=== FILE: dumper.dfy ===
/** `dump_to_json` (dumper.py:11-61) as the plan of file-system effects it performs, and what running
    that plan does to a file system. */
module Dumper {
  import opened Results
  import opened Loader
  import Decimal

  /** The JSON object written to one file: `{chunk_key: chunk_value}`. */
  type Record = map<string, Chunk>

  datatype Effect =
    | MakeDir(dir: string)                 // os.makedirs(folder_name)
    | ChDir(dir: string)                   // os.chdir(folder_name)
    | Write(file: string, record: Record)  // open(file, 'w+') and json.dump(record)
    | ChDirUp                              // os.chdir('..')

  /** `if folder_name:` holds for a non-empty string only. */
  predicate Truthy(folder: Option<string>) {
    folder.Some? && folder.value != ""
  }

  /** `chunk_key + '.json'` */
  function JsonFileName(key: string): string {
    key + ".json"
  }

  /** Distinct keys give distinct file names. */
  lemma JsonFileNameInjective(a: string, b: string)
    ensures JsonFileName(a) == JsonFileName(b) <==> a == b
  {
    if JsonFileName(a) == JsonFileName(b) {
      assert a == JsonFileName(a)[..|a|];
      assert b == JsonFileName(b)[..|b|];
    }
  }

  /** The effect that dumps one entry. */
  function WriteEntry(e: Entry): Effect {
    Write(JsonFileName(e.name), map[e.name := e.chunk])
  }

  /** dumper.py:38-41: a named folder is created when missing, then entered; no folder, no effect. */
  function EnterFolder(folder: Option<string>, dirExists: bool): (es: seq<Effect>)
    ensures es != [] ==> Truthy(folder)
    ensures Truthy(folder) ==> es != [] && es[|es| - 1] == ChDir(folder.value)
    ensures forall i :: 0 <= i < |es| ==> es[i].MakeDir? || es[i].ChDir?
    ensures forall i :: 0 <= i < |es| && es[i].MakeDir? ==> i == 0 && es[i] == MakeDir(folder.value)
    ensures (exists i :: 0 <= i < |es| && es[i].MakeDir?) <==> Truthy(folder) && !dirExists
    ensures |es| == (if !Truthy(folder) then 0 else if dirExists then 1 else 2)
  {
    if !Truthy(folder) then []
    else if dirExists then [ChDir(folder.value)]
    else
      var es := [MakeDir(folder.value), ChDir(folder.value)];
      assert es[0].MakeDir?;
      es
  }

  /** The loop of dumper.py:46-55: the write at position `i` is the one made when `pack_counter` is `i + 1`. */
  function WriteChunks(pack: Pack): (ws: seq<Effect>)
    ensures |ws| == |pack|
    ensures forall i :: 0 <= i < |pack| ==> ws[i] == WriteEntry(pack[i])
    decreases |pack|
  {
    if pack == [] then [] else [WriteEntry(pack[0])] + WriteChunks(pack[1..])
  }

  /** dumper.py:58-59, as written: back to the parent when the pack has more than one entry. */
  function LeaveFolder(pack: Pack): (es: seq<Effect>)
    ensures forall i :: 0 <= i < |es| ==> es[i] == ChDirUp
  {
    if |pack| > 1 then [ChDirUp] else []
  }

  /** The write effects of a plan, in order. */
  function Writes(plan: seq<Effect>): seq<Effect>
    decreases |plan|
  {
    if plan == [] then [] else (if plan[0].Write? then [plan[0]] else []) + Writes(plan[1..])
  }

  lemma {:induction false} WritesAppend(a: seq<Effect>, b: seq<Effect>)
    ensures Writes(a + b) == Writes(a) + Writes(b)
    decreases |a|
  {
    if a != [] {
      assert (a + b)[1..] == a[1..] + b;
      WritesAppend(a[1..], b);
    } else {
      assert a + b == b;
    }
  }

  lemma {:induction false} WritesOfWriteChunks(pack: Pack)
    ensures Writes(WriteChunks(pack)) == WriteChunks(pack)
    decreases |pack|
  {
    if pack != [] {
      WritesOfWriteChunks(pack[1..]);
    }
  }

  /** Where each effect of `a + b + c` comes from. */
  lemma ConcatIndex<T>(a: seq<T>, b: seq<T>, c: seq<T>)
    ensures forall i :: 0 <= i < |a| ==> (a + b + c)[i] == a[i]
    ensures forall i :: |a| <= i < |a| + |b| ==> (a + b + c)[i] == b[i - |a|]
    ensures forall i :: |a| + |b| <= i < |a + b + c| ==> (a + b + c)[i] == c[i - |a| - |b|]
  {
  }

  lemma WritesOfNoWrites(es: seq<Effect>)
    requires forall i :: 0 <= i < |es| ==> !es[i].Write?
    ensures Writes(es) == []
    decreases |es|
  {
    if es != [] {
      WritesOfNoWrites(es[1..]);
    }
  }

  /** The effects of `dump_to_json(pack, folder, indent)` when `os.path.isdir(folder)` answers `dirExists`. */
  function DumpToJson(pack: Pack, folder: Option<string>, dirExists: bool): seq<Effect> {
    EnterFolder(folder, dirExists) + WriteChunks(pack) + LeaveFolder(pack)
  }

  /** Exactly one write per entry, in pack order, each to `<key>.json` with the record `{key: chunk}`. */
  lemma DumpWritesInOrder(pack: Pack, folder: Option<string>, dirExists: bool)
    ensures var ws := Writes(DumpToJson(pack, folder, dirExists));
      && |ws| == |pack|
      && forall i :: 0 <= i < |pack| ==> ws[i] == Write(JsonFileName(pack[i].name), map[pack[i].name := pack[i].chunk])
  {
    var enter := EnterFolder(folder, dirExists);
    var leave := LeaveFolder(pack);
    WritesOfNoWrites(enter);
    WritesOfNoWrites(leave);
    WritesAppend(enter, WriteChunks(pack));
    WritesAppend(enter + WriteChunks(pack), leave);
    WritesOfWriteChunks(pack);
  }

  /** A folder is created only when one is named and missing, as the first effect. */
  lemma DumpMakesMissingFolder(pack: Pack, folder: Option<string>, dirExists: bool)
    ensures var plan := DumpToJson(pack, folder, dirExists);
      && ((exists i :: 0 <= i < |plan| && plan[i].MakeDir?) <==> Truthy(folder) && !dirExists)
      && forall i :: 0 <= i < |plan| && plan[i].MakeDir? ==> i == 0 && plan[i] == MakeDir(folder.value)
  {
    var enter := EnterFolder(folder, dirExists);
    ConcatIndex(enter, WriteChunks(pack), LeaveFolder(pack));
  }

  /** A named folder is entered, and every change into a folder comes before every write. */
  lemma DumpEntersFolderBeforeWrites(pack: Pack, folder: Option<string>, dirExists: bool)
    ensures var plan := DumpToJson(pack, folder, dirExists);
      && (Truthy(folder) ==> exists i :: 0 <= i < |plan| && plan[i] == ChDir(folder.value))
      && forall i, j :: 0 <= i < |plan| && 0 <= j < |plan| && plan[i].ChDir? && plan[j].Write? ==> i < j
  {
    var enter := EnterFolder(folder, dirExists);
    ConcatIndex(enter, WriteChunks(pack), LeaveFolder(pack));
    if Truthy(folder) {
      assert DumpToJson(pack, folder, dirExists)[|enter| - 1] == ChDir(folder.value);
    }
  }

  /** Without a folder there is no directory effect other than the final step back. */
  lemma DumpWithoutFolder(pack: Pack, folder: Option<string>, dirExists: bool)
    requires !Truthy(folder)
    ensures var plan := DumpToJson(pack, folder, dirExists);
      forall i :: 0 <= i < |plan| ==> plan[i].Write? || plan[i] == ChDirUp
  {
    ConcatIndex(EnterFolder(folder, dirExists), WriteChunks(pack), LeaveFolder(pack));
  }

  /** The step back to the parent happens exactly when the pack has more than one entry,
      whether or not a folder was entered. */
  lemma DumpStepsUpForSeveralChunks(pack: Pack, folder: Option<string>, dirExists: bool)
    ensures ChDirUp in DumpToJson(pack, folder, dirExists) <==> |pack| > 1
  {
    var enter := EnterFolder(folder, dirExists);
    var leave := LeaveFolder(pack);
    ConcatIndex(enter, WriteChunks(pack), leave);
    if |pack| > 1 {
      assert DumpToJson(pack, folder, dirExists)[|enter| + |pack|] == ChDirUp;
    }
  }

  /** A path: directory names from the file-system root. */
  type Path = seq<string>

  /** The part of a file system that a dump touches: directories, JSON files, working directory. */
  datatype FileSystem = FileSystem(dirs: set<Path>, files: map<Path, Record>, cwd: Path)

  datatype FsError = FileExists(path: Path) | NoSuchDirectory(path: Path) | IsADirectory(path: Path)

  /** `open` reads a file name as `/`-separated path components, relative to the working directory. */
  function SplitPath(f: string): (parts: seq<string>)
    ensures |parts| >= 1
    ensures forall i :: 0 <= i < |parts| ==> '/' !in parts[i]
    decreases |f|
  {
    if f == [] then [""]
    else
      var rest := SplitPath(f[1..]);
      if f[0] == '/' then [""] + rest else [[f[0]] + rest[0]] + rest[1..]
  }

  /** Path components joined back with `/`. */
  function JoinPath(parts: seq<string>): string
    requires |parts| >= 1
    decreases |parts|
  {
    if |parts| == 1 then parts[0] else parts[0] + "/" + JoinPath(parts[1..])
  }

  /** Splitting a file name loses nothing: joining the components gives the name back. */
  lemma {:induction false} JoinSplitPath(f: string)
    ensures JoinPath(SplitPath(f)) == f
    decreases |f|
  {
    if f != [] {
      var rest := SplitPath(f[1..]);
      JoinSplitPath(f[1..]);
      if f[0] == '/' {
        assert ([""] + rest)[1..] == rest;
      } else if |rest| > 1 {
        var parts := [[f[0]] + rest[0]] + rest[1..];
        assert parts[1..] == rest[1..];
        assert JoinPath(rest) == rest[0] + "/" + JoinPath(rest[1..]);
        assert JoinPath(parts) == [f[0]] + (rest[0] + "/" + JoinPath(rest[1..]));
        assert f == [f[0]] + f[1..];
      } else {
        assert f == [f[0]] + f[1..];
      }
    }
  }

  /** A name is a single component exactly when it holds no `/`. */
  lemma SplitPathSingle(f: string)
    ensures |SplitPath(f)| == 1 <==> '/' !in f
    ensures '/' !in f ==> SplitPath(f) == [f]
  {
    JoinSplitPath(f);
  }

  /** A leading component `d` splits off as the first component. */
  lemma {:induction false} SplitPathAfterDir(d: string, t: string)
    requires '/' !in d
    ensures SplitPath(d + "/" + t) == [d] + SplitPath(t)
    decreases |d|
  {
    if d == [] {
      assert d + "/" + t == "/" + t;
      assert ("/" + t)[1..] == t;
    } else {
      assert (d + "/" + t)[1..] == d[1..] + "/" + t;
      SplitPathAfterDir(d[1..], t);
      assert [d[0]] + d[1..] == d;
    }
  }

  /** `..` of a path; the root is its own parent. */
  function Parent(p: Path): Path {
    if p == [] then [] else p[..|p| - 1]
  }

  /** One effect: `os.makedirs` fails on an existing directory or file, `os.chdir` on a missing
      directory, and a write in mode 'w+' replaces whatever the file held. A file name with a `/`
      lands in a sub-directory, and the write fails when that directory does not exist; it also fails
      when the target is a directory. The working directory itself is taken to exist. */
  function Apply(fs: FileSystem, e: Effect): Result<FileSystem, FsError> {
    match e
    case MakeDir(d) =>
      var p := fs.cwd + [d];
      if p in fs.dirs || p in fs.files then Failure(FileExists(p)) else Success(fs.(dirs := fs.dirs + {p}))
    case ChDir(d) =>
      var p := fs.cwd + [d];
      if p in fs.dirs then Success(fs.(cwd := p)) else Failure(NoSuchDirectory(p))
    case Write(f, record) =>
      var p := fs.cwd + SplitPath(f);
      if |SplitPath(f)| > 1 && Parent(p) !in fs.dirs then Failure(NoSuchDirectory(Parent(p)))
      else if p in fs.dirs then Failure(IsADirectory(p))
      else Success(fs.(files := fs.files[p := record]))
    case ChDirUp => Success(fs.(cwd := Parent(fs.cwd)))
  }

  /** The effects in order, stopping at the first that raises. */
  function Run(fs: FileSystem, plan: seq<Effect>): Result<FileSystem, FsError>
    decreases |plan|
  {
    if plan == [] then Success(fs)
    else
      match Apply(fs, plan[0])
      case Failure(e) => Failure(e)
      case Success(next) => Run(next, plan[1..])
  }

  function Then(r: Result<FileSystem, FsError>, plan: seq<Effect>): Result<FileSystem, FsError> {
    match r
    case Failure(e) => Failure(e)
    case Success(fs) => Run(fs, plan)
  }

  lemma {:induction false} RunAppend(fs: FileSystem, a: seq<Effect>, b: seq<Effect>)
    ensures Run(fs, a + b) == Then(Run(fs, a), b)
    decreases |a|
  {
    if a == [] {
      assert a + b == b;
    } else {
      assert (a + b)[1..] == a[1..] + b;
      match Apply(fs, a[0])
      case Failure(e) =>
      case Success(next) => RunAppend(next, a[1..], b);
    }
  }

  /** Every entry name is a single path component. */
  predicate SingleComponentNames(pack: Pack) {
    forall i :: 0 <= i < |pack| ==> '/' !in pack[i].name
  }

  /** The file of an entry with a single-component name lands directly in the working directory. */
  lemma JsonFileNameSplit(name: string)
    requires '/' !in name
    ensures SplitPath(JsonFileName(name)) == [JsonFileName(name)]
  {
    assert '/' !in ".json";
    SplitPathSingle(JsonFileName(name));
  }

  /** The file an entry is dumped to inside `dir`. */
  function Target(dir: Path, e: Entry): Path {
    dir + [JsonFileName(e.name)]
  }

  ghost predicate IsTarget(dir: Path, pack: Pack, p: Path) {
    exists i :: 0 <= i < |pack| && p == Target(dir, pack[i])
  }

  /** No entry's file in `dir` is taken by a directory. */
  predicate TargetsNotDirs(dir: Path, pack: Pack, dirs: set<Path>) {
    forall i :: 0 <= i < |pack| ==> Target(dir, pack[i]) !in dirs
  }

  /** Writing one entry with a single-component name replaces its file in the working directory. */
  lemma ApplyWriteEntry(fs: FileSystem, e: Entry)
    requires '/' !in e.name && Target(fs.cwd, e) !in fs.dirs
    ensures Apply(fs, WriteEntry(e)) == Success(fs.(files := fs.files[Target(fs.cwd, e) := map[e.name := e.chunk]]))
  {
    JsonFileNameSplit(e.name);
  }

  /** The rest of a pack keeps its distinct single-component names, and a target of the pack is the
      first entry's or one of the rest's. */
  lemma PackTail(dir: Path, pack: Pack, dirs: set<Path>)
    requires pack != [] && NamesDistinct(pack) && SingleComponentNames(pack) && TargetsNotDirs(dir, pack, dirs)
    ensures NamesDistinct(pack[1..]) && SingleComponentNames(pack[1..]) && TargetsNotDirs(dir, pack[1..], dirs)
    ensures !IsTarget(dir, pack[1..], Target(dir, pack[0]))
    ensures forall p :: IsTarget(dir, pack, p) <==> p == Target(dir, pack[0]) || IsTarget(dir, pack[1..], p)
  {
    var rest := pack[1..];
    forall i | 0 <= i < |rest|
      ensures rest[i] == pack[i + 1]
    {
    }
    forall i | 0 <= i < |rest|
      ensures Target(dir, rest[i]) != Target(dir, pack[0])
    {
      JsonFileNameInjective(rest[i].name, pack[0].name);
      assert Target(dir, rest[i])[|dir|] == JsonFileName(rest[i].name);
    }
    forall p | IsTarget(dir, pack, p) && p != Target(dir, pack[0])
      ensures IsTarget(dir, rest, p)
    {
      var i :| 0 <= i < |pack| && p == Target(dir, pack[i]);
      assert p == Target(dir, rest[i - 1]);
    }
    forall p | IsTarget(dir, rest, p)
      ensures IsTarget(dir, pack, p)
    {
      var i :| 0 <= i < |rest| && p == Target(dir, rest[i]);
      assert p == Target(dir, pack[i + 1]);
    }
  }

  /** Running the writes of a pack with distinct names: each entry's file holds exactly its
      single-key record whatever it held before, every other file is as it was, and no other file
      appears. */
  lemma {:induction false} RunWriteChunks(fs: FileSystem, pack: Pack)
    requires NamesDistinct(pack)
    requires SingleComponentNames(pack)
    requires TargetsNotDirs(fs.cwd, pack, fs.dirs)
    ensures Run(fs, WriteChunks(pack)).Success?
    ensures var out := Run(fs, WriteChunks(pack)).value;
      && out.cwd == fs.cwd
      && out.dirs == fs.dirs
      && (forall i :: 0 <= i < |pack| ==>
            Target(fs.cwd, pack[i]) in out.files && out.files[Target(fs.cwd, pack[i])] == map[pack[i].name := pack[i].chunk])
      && (forall p :: p in fs.files && !IsTarget(fs.cwd, pack, p) ==> p in out.files && out.files[p] == fs.files[p])
      && (forall p :: p in out.files ==> p in fs.files || IsTarget(fs.cwd, pack, p))
    decreases |pack|
  {
    if pack != [] {
      var e := pack[0];
      var rest := pack[1..];
      var next := fs.(files := fs.files[Target(fs.cwd, e) := map[e.name := e.chunk]]);
      ApplyWriteEntry(fs, e);
      assert WriteChunks(pack)[1..] == WriteChunks(rest);
      PackTail(fs.cwd, pack, fs.dirs);
      RunWriteChunks(next, rest);
      var out := Run(next, WriteChunks(rest)).value;
      forall i | 0 <= i < |pack|
        ensures Target(fs.cwd, pack[i]) in out.files && out.files[Target(fs.cwd, pack[i])] == map[pack[i].name := pack[i].chunk]
      {
        if i > 0 {
          assert pack[i] == rest[i - 1];
        }
      }
    }
  }

  /** A folder name the model resolves as the operating system does: one component, neither `.` nor
      `..`. */
  predicate PlainFolder(folder: Option<string>) {
    Truthy(folder) ==> '/' !in folder.value && folder.value != "." && folder.value != ".."
  }

  /** A key whose components the model resolves as the operating system does: relative, and none of
      them empty, `.` or `..`. */
  predicate PlainKey(name: string) {
    name != [] && name[0] != '/' &&
    forall i :: 0 <= i < |SplitPath(name)| ==> SplitPath(name)[i] !in {"", ".", ".."}
  }

  /** The directory the files land in: the named folder, or the working directory. */
  function DumpDir(cwd: Path, folder: Option<string>): Path {
    if Truthy(folder) then cwd + [folder.value] else cwd
  }

  /** `dirExists` is what `os.path.isdir(folder_name)` answers for the file system. */
  ghost predicate DirExistsFaithful(fs: FileSystem, folder: Option<string>, dirExists: bool) {
    Truthy(folder) ==> (dirExists <==> fs.cwd + [folder.value] in fs.dirs)
  }

  /** The folder's name is not taken by a regular file (a path that is both is a directory). */
  predicate FolderNotAFile(fs: FileSystem, folder: Option<string>) {
    Truthy(folder) && fs.cwd + [folder.value] in fs.files ==> fs.cwd + [folder.value] in fs.dirs
  }

  /** Given a faithful `isdir` answer and no regular file in the folder's place, entering the folder
      never fails, ends in the dump directory, and adds at most that directory. */
  lemma RunEnterFolder(fs: FileSystem, folder: Option<string>, dirExists: bool)
    requires DirExistsFaithful(fs, folder, dirExists)
    requires FolderNotAFile(fs, folder)
    ensures Run(fs, EnterFolder(folder, dirExists)).Success?
    ensures var mid := Run(fs, EnterFolder(folder, dirExists)).value;
      && mid.cwd == DumpDir(fs.cwd, folder) && mid.files == fs.files && mid.cwd in mid.dirs + {fs.cwd}
      && fs.dirs <= mid.dirs <= fs.dirs + {DumpDir(fs.cwd, folder)}
  {
    var enter := EnterFolder(folder, dirExists);
    if Truthy(folder) {
      var p := fs.cwd + [folder.value];
      if dirExists {
        assert enter[1..] == [];
        assert Apply(fs, enter[0]) == Success(fs.(cwd := p));
      } else {
        var made := fs.(dirs := fs.dirs + {p});
        assert Apply(fs, enter[0]) == Success(made);
        assert enter[1..] == [ChDir(folder.value)];
        assert enter[1..][1..] == [];
        assert Apply(made, enter[1..][0]) == Success(made.(cwd := p));
        assert Run(made, enter[1..]) == Run(made.(cwd := p), []);
      }
    }
  }

  lemma RunStepUp(fs: FileSystem)
    ensures Run(fs, [ChDirUp]) == Success(fs.(cwd := Parent(fs.cwd)))
  {
    assert [ChDirUp][1..] == [];
  }

  /** Creating the dump directory itself does not put a directory where an entry's file goes. */
  lemma TargetsNotDirsAddingDir(dir: Path, pack: Pack, dirs: set<Path>, more: set<Path>)
    requires TargetsNotDirs(dir, pack, dirs) && more <= dirs + {dir}
    ensures TargetsNotDirs(dir, pack, more)
  {
    forall i | 0 <= i < |pack|
      ensures Target(dir, pack[i]) !in more
    {
      assert |Target(dir, pack[i])| == |dir| + 1;
    }
  }

  /** Entering the folder and writing every entry, before any step back. */
  lemma RunEnterAndWrite(fs: FileSystem, pack: Pack, folder: Option<string>, dirExists: bool)
    requires NamesDistinct(pack)
    requires SingleComponentNames(pack)
    requires DirExistsFaithful(fs, folder, dirExists)
    requires FolderNotAFile(fs, folder) && TargetsNotDirs(DumpDir(fs.cwd, folder), pack, fs.dirs)
    ensures Run(fs, EnterFolder(folder, dirExists) + WriteChunks(pack)).Success?
    ensures var mid := Run(fs, EnterFolder(folder, dirExists) + WriteChunks(pack)).value;
      var dir := DumpDir(fs.cwd, folder);
      && mid.cwd == dir
      && (forall i :: 0 <= i < |pack| ==>
            Target(dir, pack[i]) in mid.files && mid.files[Target(dir, pack[i])] == map[pack[i].name := pack[i].chunk])
      && (forall p :: p in fs.files && !IsTarget(dir, pack, p) ==> p in mid.files && mid.files[p] == fs.files[p])
      && (forall p :: p in mid.files ==> p in fs.files || IsTarget(dir, pack, p))
  {
    var enter := EnterFolder(folder, dirExists);
    RunAppend(fs, enter, WriteChunks(pack));
    RunEnterFolder(fs, folder, dirExists);
    var mid := Run(fs, enter).value;
    var dir := DumpDir(fs.cwd, folder);
    TargetsNotDirsAddingDir(dir, pack, fs.dirs, mid.dirs);
    RunWriteChunks(mid, pack);
  }

  /** Running the dump plan on a file system: it never raises; every entry's file in the dump
      directory holds exactly `{name: chunk}`, replacing any earlier content; other files are left
      alone and no other file appears; and the working directory ends in the parent of the dump
      directory when the pack has more than one entry, in the dump directory otherwise. */
  lemma DumpOutcome(fs: FileSystem, pack: Pack, folder: Option<string>, dirExists: bool)
    requires NamesDistinct(pack)
    requires SingleComponentNames(pack)
    requires PlainFolder(folder)
    requires DirExistsFaithful(fs, folder, dirExists)
    requires FolderNotAFile(fs, folder) && TargetsNotDirs(DumpDir(fs.cwd, folder), pack, fs.dirs)
    ensures Run(fs, DumpToJson(pack, folder, dirExists)).Success?
    ensures var out := Run(fs, DumpToJson(pack, folder, dirExists)).value;
      var dir := DumpDir(fs.cwd, folder);
      && (forall i :: 0 <= i < |pack| ==>
            Target(dir, pack[i]) in out.files && out.files[Target(dir, pack[i])] == map[pack[i].name := pack[i].chunk])
      && (forall p :: p in fs.files && !IsTarget(dir, pack, p) ==> p in out.files && out.files[p] == fs.files[p])
      && (forall p :: p in out.files ==> p in fs.files || IsTarget(dir, pack, p))
      && out.cwd == (if |pack| > 1 then Parent(dir) else dir)
  {
    var written := EnterFolder(folder, dirExists) + WriteChunks(pack);
    RunAppend(fs, written, LeaveFolder(pack));
    RunEnterAndWrite(fs, pack, folder, dirExists);
    if |pack| > 1 {
      RunStepUp(Run(fs, written).value);
    }
  }

  /** The working directory comes back to where it started exactly when a folder was named and the
      pack has more than one entry, or neither: a one-entry dump into a folder stays in the folder,
      and a several-entry dump without one climbs out of the starting directory. */
  lemma DumpCwdQuirk(fs: FileSystem, pack: Pack, folder: Option<string>, dirExists: bool)
    requires NamesDistinct(pack)
    requires SingleComponentNames(pack)
    requires PlainFolder(folder)
    requires DirExistsFaithful(fs, folder, dirExists)
    requires FolderNotAFile(fs, folder) && TargetsNotDirs(DumpDir(fs.cwd, folder), pack, fs.dirs)
    requires fs.cwd != []
    ensures Run(fs, DumpToJson(pack, folder, dirExists)).Success?
    ensures Run(fs, DumpToJson(pack, folder, dirExists)).value.cwd == fs.cwd <==> (Truthy(folder) <==> |pack| > 1)
  {
    DumpOutcome(fs, pack, folder, dirExists);
    var dir := DumpDir(fs.cwd, folder);
    if Truthy(folder) {
      assert Parent(dir) == fs.cwd;
      assert |dir| == |fs.cwd| + 1;
    } else {
      assert |Parent(dir)| == |fs.cwd| - 1;
    }
  }

  /** dumper.py:58-59 as its comment at line 57 describes it: back to the parent exactly when a folder was entered. */
  function DumpToJsonScoped(pack: Pack, folder: Option<string>, dirExists: bool): seq<Effect> {
    EnterFolder(folder, dirExists) + WriteChunks(pack) + (if Truthy(folder) then [ChDirUp] else [])
  }

  /** The scoped plan writes the same files as the as-written plan `DumpToJson` and always returns to the starting directory. */
  lemma ScopedDumpRestoresCwd(fs: FileSystem, pack: Pack, folder: Option<string>, dirExists: bool)
    requires NamesDistinct(pack)
    requires SingleComponentNames(pack)
    requires PlainFolder(folder)
    requires DirExistsFaithful(fs, folder, dirExists)
    requires FolderNotAFile(fs, folder) && TargetsNotDirs(DumpDir(fs.cwd, folder), pack, fs.dirs)
    ensures Run(fs, DumpToJsonScoped(pack, folder, dirExists)).Success?
    ensures Run(fs, DumpToJsonScoped(pack, folder, dirExists)).value.cwd == fs.cwd
    ensures Run(fs, DumpToJson(pack, folder, dirExists)).Success?
    ensures Run(fs, DumpToJsonScoped(pack, folder, dirExists)).value.files
         == Run(fs, DumpToJson(pack, folder, dirExists)).value.files
  {
    var written := EnterFolder(folder, dirExists) + WriteChunks(pack);
    var back: seq<Effect> := if Truthy(folder) then [ChDirUp] else [];
    RunAppend(fs, written, back);
    RunAppend(fs, written, LeaveFolder(pack));
    RunEnterAndWrite(fs, pack, folder, dirExists);
    var mid := Run(fs, written).value;
    RunStepUp(mid);
  }

  /** A one-chunk dump into a fresh folder `out` leaves the working directory inside `out`. */
  lemma OneChunkDumpStaysInFolder()
    ensures var fs := FileSystem({["home"]}, map[], ["home"]);
      var out := Run(fs, DumpToJson([Entry("data_chunk1", [])], Some("out"), false));
      out.Success? && out.value.cwd == ["home", "out"]
  {
    var fs := FileSystem({["home"]}, map[], ["home"]);
    var pack := [Entry("data_chunk1", [])];
    assert |Target(["home", "out"], pack[0])| == 3;
    DumpOutcome(fs, pack, Some("out"), false);
  }

  /** A key `d/n` (what `load_from_csv` makes of a file name with a directory part) writes into the
      sub-directory `d` of the working directory: the write replaces `d/n.json` when `d` exists and
      `d/n.json` is not a directory, and raises otherwise. */
  lemma RunNestedWrite(fs: FileSystem, d: string, n: string, chunk: Chunk)
    requires '/' !in d && '/' !in n && d !in {"", ".", ".."}
    ensures var name := d + "/" + n;
      var p := fs.cwd + [d, JsonFileName(n)];
      Run(fs, [WriteEntry(Entry(name, chunk))])
        == if fs.cwd + [d] !in fs.dirs then Failure(NoSuchDirectory(fs.cwd + [d]))
           else if p in fs.dirs then Failure(IsADirectory(p))
           else Success(fs.(files := fs.files[p := map[name := chunk]]))
  {
    var name := d + "/" + n;
    assert JsonFileName(name) == d + "/" + JsonFileName(n);
    SplitPathAfterDir(d, JsonFileName(n));
    JsonFileNameSplit(n);
    var p := fs.cwd + [d, JsonFileName(n)];
    assert fs.cwd + SplitPath(JsonFileName(name)) == p;
    assert Parent(p) == fs.cwd + [d];
    assert [WriteEntry(Entry(name, chunk))][1..] == [];
  }

  /** The writes of a pack raise as soon as one of them would raise on the starting file system:
      earlier writes change neither the directories nor the working directory. */
  lemma {:induction false} RunWriteChunksFailsAt(fs: FileSystem, pack: Pack, k: nat)
    requires k < |pack| && Apply(fs, WriteEntry(pack[k])).Failure?
    ensures Run(fs, WriteChunks(pack)).Failure?
    decreases |pack|
  {
    assert WriteChunks(pack)[0] == WriteEntry(pack[0]);
    assert WriteChunks(pack)[1..] == WriteChunks(pack[1..]);
    match Apply(fs, WriteEntry(pack[0]))
    case Failure(_) =>
    case Success(next) =>
      assert next.dirs == fs.dirs && next.cwd == fs.cwd;
      assert pack[k] == pack[1..][k - 1];
      RunWriteChunksFailsAt(next, pack[1..], k - 1);
  }

  /** The writes of a pack raise when some entry's file lies in a sub-directory that does not exist. */
  lemma RunWriteChunksMissingDir(fs: FileSystem, pack: Pack, k: nat)
    requires k < |pack| && PlainKey(pack[k].name)
    requires var parts := SplitPath(JsonFileName(pack[k].name));
      |parts| > 1 && Parent(fs.cwd + parts) !in fs.dirs
    ensures Run(fs, WriteChunks(pack)).Failure?
  {
    RunWriteChunksFailsAt(fs, pack, k);
  }

  /** The writes of a pack raise when some entry's file is a directory. */
  lemma RunWriteChunksTargetIsDir(fs: FileSystem, pack: Pack, k: nat)
    requires k < |pack| && '/' !in pack[k].name
    requires Target(fs.cwd, pack[k]) in fs.dirs
    ensures Run(fs, WriteChunks(pack)).Failure?
  {
    JsonFileNameSplit(pack[k].name);
    RunWriteChunksFailsAt(fs, pack, k);
  }

  /** `os.makedirs` raises when a regular file has the folder's name: `isdir` answers no, so the
      dump tries to create the folder. */
  lemma DumpIntoFileNamedLikeFolderFails(fs: FileSystem, pack: Pack, folder: Option<string>)
    requires Truthy(folder)
    requires fs.cwd + [folder.value] in fs.files && fs.cwd + [folder.value] !in fs.dirs
    ensures Run(fs, DumpToJson(pack, folder, false)) == Failure(FileExists(fs.cwd + [folder.value]))
  {
    var enter := EnterFolder(folder, false);
    assert Apply(fs, enter[0]) == Failure(FileExists(fs.cwd + [folder.value]));
    RunAppend(fs, enter + WriteChunks(pack), LeaveFolder(pack));
    RunAppend(fs, enter, WriteChunks(pack));
  }

  /** Dumping into a folder that does not exist yet raises as soon as one key is a plain relative
      path with a directory part: the new folder has no sub-directories for such a key's file. */
  lemma DumpNestedKeyIntoNewFolderFails(fs: FileSystem, pack: Pack, folder: Option<string>, k: nat)
    requires Truthy(folder) && DirExistsFaithful(fs, folder, false)
    requires forall q :: q in fs.dirs ==> !(fs.cwd + [folder.value] <= q)
    requires k < |pack| && '/' in pack[k].name && PlainKey(pack[k].name)
    ensures Run(fs, DumpToJson(pack, folder, false)).Failure?
  {
    var dir := fs.cwd + [folder.value];
    if dir in fs.files {
      DumpIntoFileNamedLikeFolderFails(fs, pack, folder);
    } else {
      var enter := EnterFolder(folder, false);
      var made := fs.(dirs := fs.dirs + {dir});
      var mid := made.(cwd := dir);
      assert Apply(fs, enter[0]) == Success(made);
      assert enter[1..] == [ChDir(folder.value)] && enter[1..][1..] == [];
      assert Apply(made, enter[1..][0]) == Success(mid);
      assert Run(made, enter[1..]) == Run(mid, []);
      RunAppend(fs, enter + WriteChunks(pack), LeaveFolder(pack));
      RunAppend(fs, enter, WriteChunks(pack));
      var parts := SplitPath(JsonFileName(pack[k].name));
      var i :| 0 <= i < |pack[k].name| && pack[k].name[i] == '/';
      assert JsonFileName(pack[k].name)[i] == '/';
      SplitPathSingle(JsonFileName(pack[k].name));
      var parent := Parent(mid.cwd + parts);
      assert parent[..|dir|] == dir && |parent| > |dir|;
      assert parent !in mid.dirs;
      RunWriteChunksMissingDir(mid, pack, k);
    }
  }

  /** `load_from_csv("data/x.csv", ...)` keys its first chunk `data/x_chunk1`. */
  lemma CsvInSubfolderKey()
    ensures ChunkName("data/x.csv", 1) == "data" + "/" + "x_chunk1"
  {
    assert Decimal.NatToString(1) == "1";
  }

  /** `d/n` is a plain relative key when `d` and `n` are plain components. */
  lemma PlainKeyOfDirAndName(d: string, n: string)
    requires '/' !in d && '/' !in n
    requires d !in {"", ".", ".."} && n !in {"", ".", ".."}
    ensures PlainKey(d + "/" + n)
  {
    SplitPathAfterDir(d, n);
    SplitPathSingle(n);
    assert (d + "/" + n)[0] == d[0];
  }

  /** `data/x_chunk1` is the plain relative path `data`, `x_chunk1`. */
  lemma CsvInSubfolderKeyPlain()
    ensures PlainKey("data" + "/" + "x_chunk1")
  {
    var d, n := "data", "x_chunk1";
    assert |d| == 4 && |n| == 8;
    PlainKeyOfDirAndName(d, n);
  }

  /** The chunk of `data/x.csv` is named `data/x_chunk1`; dumping it into a new folder `out` raises,
      because `out/data` does not exist. */
  lemma CsvInSubfolderDumpFails()
    ensures var fs := FileSystem({["home"]}, map[], ["home"]);
      var pack := [Entry(ChunkName("data/x.csv", 1), [])];
      Run(fs, DumpToJson(pack, Some("out"), false)).Failure?
  {
    var fs := FileSystem({["home"]}, map[], ["home"]);
    var name := ChunkName("data/x.csv", 1);
    CsvInSubfolderKey();
    CsvInSubfolderKeyPlain();
    assert name[4] == '/';
    DumpNestedKeyIntoNewFolderFails(fs, [Entry(name, [])], Some("out"), 0);
  }
}

=== FILE: loader.dfy ===
/** `load_from_csv` (loader.py:11-87) applied to a CSV file that is already split into records and cells. */
module Loader {
  import opened Results
  import opened Decimal
  import opened Rows
  import opened Chunking

  /** A chunk: row maps in file order. */
  type Chunk = seq<Row>

  /** One entry of the chunk pack: the generated chunk name and the chunk. */
  datatype Entry = Entry(name: string, chunk: Chunk)

  /** The chunk pack, a Python dict, as its entries in insertion order. */
  type Pack = seq<Entry>

  datatype LoadError =
    | EmptyFile            // no header record: `next(csv_reader)` raises StopIteration
    | ShortRow(index: nat) // data record `index` (0-based, header excluded) has fewer cells than the header: IndexError

  /** `csv_filename[:-4]`: the file name without its last four characters (the ".csv" extension);
      Python's slice gives the empty string for a shorter name. */
  function BaseName(filename: string): (base: string)
    ensures |filename| >= 4 ==> base + filename[|filename| - 4..] == filename
    ensures |filename| < 4 ==> base == ""
  {
    if |filename| >= 4 then filename[..|filename| - 4] else ""
  }

  /** `csv_filename[:-4] + '_chunk' + str(part)` */
  function ChunkName(filename: string, part: nat): string {
    BaseName(filename) + "_chunk" + NatToString(part)
  }

  /** Chunk names of one file differ exactly when their part numbers differ. */
  lemma ChunkNameInjective(filename: string, i: nat, j: nat)
    ensures ChunkName(filename, i) == ChunkName(filename, j) <==> i == j
  {
    var prefix := BaseName(filename) + "_chunk";
    if ChunkName(filename, i) == ChunkName(filename, j) {
      assert NatToString(i) == ChunkName(filename, i)[|prefix|..];
      assert NatToString(j) == ChunkName(filename, j)[|prefix|..];
      NatToStringInjective(i, j);
    }
  }

  function Chunks(pack: Pack): seq<Chunk> {
    seq(|pack|, i requires 0 <= i < |pack| => pack[i].chunk)
  }

  /** No two entries share a name, as for the keys of a dict. */
  predicate NamesDistinct(pack: Pack) {
    forall i, j :: 0 <= i < j < |pack| ==> pack[i].name != pack[j].name
  }

  /** Entry `i` is named after part `i + 1`. */
  ghost predicate NamedConsecutively(filename: string, pack: Pack) {
    forall i :: 0 <= i < |pack| ==> pack[i].name == ChunkName(filename, i + 1)
  }

  /** The default `chunk_size` of `load_from_csv` (loader.py:11). */
  const DefaultChunkSize: Option<int> := Some(1000000)

  /** `not chunk_size`: `None` or 0. */
  predicate Falsy(chunkSize: Option<int>) {
    chunkSize == None || chunkSize == Some(0)
  }

  /** Every data record has at least as many cells as the header (the first record). */
  ghost predicate RecordsLongEnough(records: seq<seq<string>>)
    requires records != []
  {
    forall i :: 1 <= i < |records| ==> |records[0]| <= |records[i]|
  }

  /** The row maps of the data records, in file order; the header record is not one of them. */
  ghost function DataRows(records: seq<seq<string>>): (rows: seq<Row>)
    requires records != [] && RecordsLongEnough(records)
  {
    seq(|records| - 1, i requires 0 <= i < |records| - 1 => BuildRow(records[0], records[i + 1]))
  }

  /** The row maps of `data` in order, or the error for the first record too short for the header. */
  function BuildRows(header: seq<string>, data: seq<seq<string>>): (r: Result<seq<Row>, LoadError>)
    ensures r.Success? <==> forall i :: 0 <= i < |data| ==> |header| <= |data[i]|
    ensures r.Success? ==> |r.value| == |data| && forall i :: 0 <= i < |data| ==> r.value[i] == BuildRow(header, data[i])
    ensures r.Failure? ==>
      && r.error.ShortRow?
      && r.error.index < |data|
      && |data[r.error.index]| < |header|
      && forall i :: 0 <= i < r.error.index ==> |header| <= |data[i]|
    decreases |data|
  {
    if data == [] then Success([])
    else
      var last := data[|data| - 1];
      match BuildRows(header, data[..|data| - 1])
      case Failure(e) => Failure(e)
      case Success(rows) =>
        if |last| < |header| then Failure(ShortRow(|data| - 1))
        else Success(rows + [BuildRow(header, last)])
  }

  /** The state of the splitting loop (loader.py:64-79): the sealed entries, the chunk being filled
      (`chunk_insert`), the row counter (`counter`) and the part number of the chunk being filled (`parts`). */
  datatype Splitter = Splitter(pack: Pack, insert: Chunk, counter: int, parts: nat)

  /** Before the loop: loader.py:50-52 and 65. */
  const Start := Splitter([], [], 0, 1)

  /** The sealed entries plus the chunk being filled, under the name of its part number. */
  function Seal(filename: string, s: Splitter): Pack {
    s.pack + [Entry(ChunkName(filename, s.parts), s.insert)]
  }

  /** One turn of the splitting loop on a built row map: seal when the counter has reached the size,
      then append the row. */
  function Feed(filename: string, size: int, s: Splitter, row: Row): Splitter {
    if s.counter == size then Splitter(Seal(filename, s), [row], 1, s.parts + 1)
    else Splitter(s.pack, s.insert + [row], s.counter + 1, s.parts)
  }

  /** The loop state once `rows` have been fed in order. */
  function FeedAll(filename: string, size: int, rows: seq<Row>): Splitter
    decreases |rows|
  {
    if rows == [] then Start
    else Feed(filename, size, FeedAll(filename, size, rows[..|rows| - 1]), rows[|rows| - 1])
  }

  /** What holds of the loop state for a positive size after `rows` have been fed. */
  ghost predicate SplitterInv(filename: string, size: nat, rows: seq<Row>, s: Splitter) {
    && Flatten(Chunks(s.pack)) + s.insert == rows
    && (forall i :: 0 <= i < |s.pack| ==> |s.pack[i].chunk| == size)
    && NamedConsecutively(filename, s.pack)
    && s.parts == |s.pack| + 1
    && s.counter == |s.insert| <= size
    && (rows != [] ==> s.insert != [])
  }

  /** Sealing keeps the sealed entries, adds the pending chunk after them, and names it after the
      next part number. */
  lemma SealFlatten(filename: string, s: Splitter)
    ensures Flatten(Chunks(Seal(filename, s))) == Flatten(Chunks(s.pack)) + s.insert
    ensures Seal(filename, s)[..|s.pack|] == s.pack
    ensures NamedConsecutively(filename, s.pack) && s.parts == |s.pack| + 1 ==>
      NamedConsecutively(filename, Seal(filename, s))
  {
    assert Chunks(Seal(filename, s)) == Chunks(s.pack) + [s.insert];
    FlattenSnoc(Chunks(s.pack), s.insert);
  }

  lemma {:induction false} FeedAllInvariant(filename: string, size: nat, rows: seq<Row>)
    requires size > 0
    ensures SplitterInv(filename, size, rows, FeedAll(filename, size, rows))
    decreases |rows|
  {
    if rows != [] {
      var prefix := rows[..|rows| - 1];
      var row := rows[|rows| - 1];
      var s := FeedAll(filename, size, prefix);
      FeedAllInvariant(filename, size, prefix);
      assert prefix + [row] == rows;
      if s.counter == size {
        SealFlatten(filename, s);
      } else {
        assert Flatten(Chunks(s.pack)) + (s.insert + [row]) == Flatten(Chunks(s.pack)) + s.insert + [row];
      }
    }
  }

  /** A negative size never equals the counter, so nothing is sealed inside the loop. */
  lemma {:induction false} FeedAllNegative(filename: string, size: int, rows: seq<Row>)
    requires size < 0
    ensures FeedAll(filename, size, rows) == Splitter([], rows, |rows|, 1)
    decreases |rows|
  {
    if rows != [] {
      FeedAllNegative(filename, size, rows[..|rows| - 1]);
      assert rows[..|rows| - 1] + [rows[|rows| - 1]] == rows;
    }
  }

  /** The splitting branch (loader.py:64-83): run the loop, then seal a non-empty trailing chunk. */
  function SplitRows(filename: string, size: int, rows: seq<Row>): Pack {
    var s := FeedAll(filename, size, rows);
    if s.insert != [] then Seal(filename, s) else s.pack
  }

  /** With a positive size the chunks glue back to the rows, are named after parts 1, 2, ... and
      are full except for a non-empty last one. */
  lemma SplitRowsPositive(filename: string, size: int, rows: seq<Row>)
    requires size > 0
    ensures var pack := SplitRows(filename, size, rows);
      && Flatten(Chunks(pack)) == rows
      && NamedConsecutively(filename, pack)
      && WellChunked(Chunks(pack), size)
  {
    var s := FeedAll(filename, size, rows);
    FeedAllInvariant(filename, size, rows);
    if s.insert != [] {
      SealFlatten(filename, s);
    } else {
      assert Flatten(Chunks(s.pack)) + [] == Flatten(Chunks(s.pack));
    }
  }

  /** With a negative size every row stays in one chunk, `_chunk1`, sealed only if there are rows. */
  lemma SplitRowsNegative(filename: string, size: int, rows: seq<Row>)
    requires size < 0
    ensures SplitRows(filename, size, rows) == if rows == [] then [] else [Entry(ChunkName(filename, 1), rows)]
  {
    FeedAllNegative(filename, size, rows);
  }

  /** The first record is the header (`next(csv_reader)`, loader.py:49) and every later record
      becomes a row map; no record at all, or a data record shorter than the header, is an error. */
  function ReadRows(records: seq<seq<string>>): (r: Result<seq<Row>, LoadError>)
    ensures records == [] ==> r == Failure(EmptyFile)
    ensures r.Success? <==> records != [] && RecordsLongEnough(records)
    ensures r.Failure? && records != [] ==>
      && r.error.ShortRow?
      && r.error.index + 1 < |records|
      && |records[r.error.index + 1]| < |records[0]|
      && forall i :: 1 <= i <= r.error.index ==> |records[0]| <= |records[i]|
    ensures r.Success? ==> r.value == DataRows(records)
  {
    if records == [] then Failure(EmptyFile)
    else
      var data := records[1..];
      assert forall i :: 1 <= i < |records| ==> records[i] == data[i - 1];
      var r := BuildRows(records[0], data);
      assert r.Success? ==> r.value == DataRows(records);
      r
  }

  /** loader.py:55-83: every row in the single chunk `_chunk1` for a falsy size, the splitting loop
      otherwise. The chunks glue back to the rows and are named after parts 1, 2, ... in order; a
      falsy size gives one entry, a positive one full chunks and a non-empty remainder, a negative
      one at most one entry. */
  function ChunkRows(filename: string, chunkSize: Option<int>, rows: seq<Row>): (pack: Pack)
    ensures Flatten(Chunks(pack)) == rows
    ensures NamedConsecutively(filename, pack)
    ensures Falsy(chunkSize) ==> |pack| == 1
    ensures chunkSize.Some? && chunkSize.value > 0 ==> WellChunked(Chunks(pack), chunkSize.value)
    ensures chunkSize.Some? && chunkSize.value < 0 ==> |pack| <= 1
  {
    if Falsy(chunkSize) then
      FlattenSingle(rows);
      assert Chunks([Entry(ChunkName(filename, 1), rows)]) == [rows];
      [Entry(ChunkName(filename, 1), rows)]
    else if chunkSize.value > 0 then
      SplitRowsPositive(filename, chunkSize.value, rows);
      SplitRows(filename, chunkSize.value, rows)
    else
      SplitRowsNegative(filename, chunkSize.value, rows);
      FlattenSingle(rows);
      assert Chunks([Entry(ChunkName(filename, 1), rows)]) == [rows];
      SplitRows(filename, chunkSize.value, rows)
  }

  /** `load_from_csv(filename, chunkSize)` over the file's records: the errors of `ReadRows`; on
      success the chunks glue back to the row maps of the records after the header, in order, and
      are named `<base>_chunk1`, `<base>_chunk2`, ... */
  function LoadFromCsv(filename: string, records: seq<seq<string>>, chunkSize: Option<int>): (r: Result<Pack, LoadError>)
    ensures records == [] ==> r == Failure(EmptyFile)
    ensures r.Success? <==> records != [] && RecordsLongEnough(records)
    ensures r.Failure? && records != [] ==>
      && r.error.ShortRow?
      && r.error.index + 1 < |records|
      && |records[r.error.index + 1]| < |records[0]|
      && forall i :: 1 <= i <= r.error.index ==> |records[0]| <= |records[i]|
    ensures r.Success? ==> Flatten(Chunks(r.value)) == DataRows(records)
    ensures r.Success? ==> NamedConsecutively(filename, r.value)
  {
    match ReadRows(records)
    case Failure(e) => Failure(e)
    case Success(rows) => Success(ChunkRows(filename, chunkSize, rows))
  }

  /** With a positive size every chunk holds 1..K rows and all but the last exactly K. */
  lemma LoadChunkBounds(filename: string, records: seq<seq<string>>, k: int)
    requires k > 0
    ensures var r := LoadFromCsv(filename, records, Some(k));
      r.Success? ==> WellChunked(Chunks(r.value), k)
  {
  }

  /** With a falsy size the pack is the single entry `<base>_chunk1` holding every row, even when there are none. */
  lemma LoadUnsplit(filename: string, records: seq<seq<string>>, chunkSize: Option<int>)
    requires Falsy(chunkSize)
    ensures var r := LoadFromCsv(filename, records, chunkSize);
      r.Success? ==> r.value == [Entry(ChunkName(filename, 1), DataRows(records))]
  {
    var r := LoadFromCsv(filename, records, chunkSize);
    if r.Success? {
      var c := r.value[0].chunk;
      assert Chunks(r.value) == [c];
      FlattenSingle(c);
      assert r.value[0].name == ChunkName(filename, 0 + 1);
      assert r.value == [Entry(r.value[0].name, c)];
    }
  }

  lemma PackCount(pack: Pack, k: nat, n: nat)
    requires k > 0 && WellChunked(Chunks(pack), k) && |Flatten(Chunks(pack))| == n
    ensures |pack| == (n + k - 1) / k
    ensures pack == [] <==> n == 0
  {
    ChunkCount(Chunks(pack), k);
  }

  /** With a positive size `k` and `n` data rows the pack has ceil(n / k) entries; no rows, no entries. */
  lemma LoadChunkCount(filename: string, records: seq<seq<string>>, k: int)
    requires k > 0
    ensures var r := LoadFromCsv(filename, records, Some(k));
      r.Success? ==>
        && |r.value| == (|records| - 1 + k - 1) / k
        && (r.value == [] <==> |records| == 1)
  {
    var r := LoadFromCsv(filename, records, Some(k));
    if r.Success? {
      assert |DataRows(records)| == |records| - 1;
      PackCount(r.value, k, |records| - 1);
    }
  }

  /** With a positive size the chunks are exactly what the reference cutting gives. */
  lemma LoadMatchesChunksOf(filename: string, records: seq<seq<string>>, k: int)
    requires k > 0
    ensures var r := LoadFromCsv(filename, records, Some(k));
      r.Success? ==> Chunks(r.value) == ChunksOf(DataRows(records), k)
  {
    var r := LoadFromCsv(filename, records, Some(k));
    if r.Success? {
      var rows := DataRows(records);
      WellChunkedUnique(Chunks(r.value), ChunksOf(rows, k), k);
    }
  }

  /** A negative size is never reached by the counter: one entry holding every row, or none without rows. */
  lemma LoadNegativeSize(filename: string, records: seq<seq<string>>, k: int)
    requires k < 0
    ensures var r := LoadFromCsv(filename, records, Some(k));
      r.Success? ==>
        r.value == if |records| == 1 then [] else [Entry(ChunkName(filename, 1), DataRows(records))]
  {
    if records != [] && RecordsLongEnough(records) {
      SplitRowsNegative(filename, k, DataRows(records));
    }
  }

  /** Entries named after consecutive part numbers have pairwise distinct names. */
  lemma ConsecutiveNamesDistinct(filename: string, pack: Pack)
    requires NamedConsecutively(filename, pack)
    ensures NamesDistinct(pack)
  {
    forall i, j | 0 <= i < j < |pack|
      ensures pack[i].name != pack[j].name
    {
      ChunkNameInjective(filename, i + 1, j + 1);
    }
  }

  /** The generated names are pairwise distinct, so no chunk replaces another in the dict. */
  lemma LoadNamesDistinct(filename: string, records: seq<seq<string>>, chunkSize: Option<int>)
    ensures var r := LoadFromCsv(filename, records, chunkSize);
      r.Success? ==> NamesDistinct(r.value)
  {
    var r := LoadFromCsv(filename, records, chunkSize);
    if r.Success? {
      ConsecutiveNamesDistinct(filename, r.value);
    }
  }
}

=== FILE: results.dfy ===
/** Failure-carrying wrappers shared by the loader and the dumper. */
module Results {

  /** An optional value; `None` plays the part of Python's `None`. */
  datatype Option<+T> = None | Some(value: T)

  /** The outcome of an operation that may raise instead of returning. */
  datatype Result<+T, +E> = Success(value: T) | Failure(error: E)
}

=== FILE: rows.dfy ===
/** One CSV data record turned into a column-name-to-cell map (loader.py:57-59, 75-77). */
module Rows {

  /** A row: column name to raw cell text, with no type coercion. */
  type Row = map<string, string>

  /** Position `i` holds the last occurrence of its column name among the first `n` header cells. */
  ghost predicate LastIn(header: seq<string>, n: nat, i: nat)
    requires i < n <= |header|
  {
    forall j :: i < j < n ==> header[j] != header[i]
  }

  /** The map after the first `n` turns of the column loop, each doing `m[header[i]] := cells[i]`. */
  function BuildRowPrefix(header: seq<string>, cells: seq<string>, n: nat): Row
    requires n <= |header| <= |cells|
    decreases n
  {
    if n == 0 then map[] else BuildRowPrefix(header, cells, n - 1)[header[n - 1] := cells[n - 1]]
  }

  lemma {:induction false} BuildRowPrefixKeys(header: seq<string>, cells: seq<string>, n: nat)
    requires n <= |header| <= |cells|
    ensures forall k :: k in BuildRowPrefix(header, cells, n) <==> k in header[..n]
    decreases n
  {
    if n > 0 {
      BuildRowPrefixKeys(header, cells, n - 1);
      assert header[..n] == header[..n - 1] + [header[n - 1]];
    }
  }

  lemma {:induction false} BuildRowPrefixValues(header: seq<string>, cells: seq<string>, n: nat)
    requires n <= |header| <= |cells|
    ensures forall i :: 0 <= i < n && LastIn(header, n, i) ==>
      header[i] in BuildRowPrefix(header, cells, n) && BuildRowPrefix(header, cells, n)[header[i]] == cells[i]
    decreases n
  {
    if n > 0 {
      BuildRowPrefixValues(header, cells, n - 1);
      forall i | 0 <= i < n - 1 && LastIn(header, n, i)
        ensures LastIn(header, n - 1, i) && header[i] != header[n - 1]
      {
      }
    }
  }

  /** The row map of a record holding at least as many cells as the header: its keys are exactly
      the header names, and a repeated name is bound to the cell under its last occurrence. */
  function BuildRow(header: seq<string>, cells: seq<string>): (m: Row)
    requires |header| <= |cells|
    ensures forall k :: k in m <==> k in header
    ensures forall i :: 0 <= i < |header| && LastIn(header, |header|, i) ==> m[header[i]] == cells[i]
  {
    assert header[..|header|] == header;
    BuildRowPrefixKeys(header, cells, |header|);
    BuildRowPrefixValues(header, cells, |header|);
    BuildRowPrefix(header, cells, |header|)
  }

  lemma {:induction false} BuildRowPrefixIgnoresExtraCells(header: seq<string>, cells: seq<string>, n: nat)
    requires n <= |header| <= |cells|
    ensures BuildRowPrefix(header, cells, n) == BuildRowPrefix(header, cells[..|header|], n)
    decreases n
  {
    if n > 0 {
      BuildRowPrefixIgnoresExtraCells(header, cells, n - 1);
    }
  }

  /** Cells past the header's length play no part in the row map. */
  lemma BuildRowIgnoresExtraCells(header: seq<string>, cells: seq<string>)
    requires |header| <= |cells|
    ensures BuildRow(header, cells) == BuildRow(header, cells[..|header|])
  {
    BuildRowPrefixIgnoresExtraCells(header, cells, |header|);
  }
}
